=== FILE: README.md ===
# synthetic-exporter, modelled in Dafny

synthetic-exporter answers `GET /probe?target=<url>` by driving a remote
Chromium through Playwright. It loads the target and returns
`synthetic_probe_success{target="..."}` in the Prometheus exposition format.
This project models the deterministic logic under that I/O, in four parts:

- **Probe controller** (`probe.dfy`, module `Probe`). It covers the
  constructor, which applies the options and then registers four gauges. It
  also covers the `index` request handler as a pure step function over the
  registry.
  - The handler's inputs are the controller state, the browser handler's
    state, the target, and the first statement of the `try` block that
    throws (a Playwright call, the `JSON.parse` of the page's result, or a
    logger call).
  - Its outputs are the new controller state, the reply (snapshot sent,
    error forwarded, or promise rejected with no response), whether the
    content type was set, and which session objects were left open.
- **Browser handler** (`browser_handler.dfy`, module `BrowserHandler`). It
  covers the constructor, the option builders, the `initBrowser` retry loop
  with its `retry` predicate, the `disconnected` listener, `close` and
  `isConnected`.
  - One sequence of outcomes drives each connect run: call `i` succeeds iff
    `i < |env|` and `env[i]`.
  - The emitted events (`connection_retry`, `error`) are kept as a log.
- **Performance metric** (`performance_metric.dfy`, module
  `PerformanceMetric`). It covers the `Metric` constructor, `set` (which
  stores `floor(ms) / 1000` over reals) and `reset`.
- **Error middleware** (`error_middleware.dfy`, module `ErrorMiddleware`).
  This part maps an error's status and message to the response status and
  the JSON body.

Two supporting modules complete the project. `prom.dfy` (module `Prom`)
abstracts the metrics library. A gauge is a map from the `target` label to a
value, a registry is the sequence of registered gauges, and a snapshot is the
map from (metric name, target) to value that the exposition text would list.
`wrappers.dfy` holds `Option` and `Result`.

The Probe controller shares gauge objects with its registry. The model
represents that sharing by name: setting "the success gauge" updates the
registered gauge with that name.

## Behaviour worth knowing

Several consequences of the code are easy to miss when reading it. The model
follows the code in each case:
- The attempt counter is set to 0 in the constructor and never reset, not
  even after a successful connect. Failures spent earlier therefore reduce
  the budget of a later reconnect (`BrowserHandler.SpentRetriesStaySpent`).
- The page and the context are closed only on the success path. When a probe
  step throws, whatever was already created stays open
  (`Probe.FailedProbeSnapshot`, `Probe.SessionClosedOnlyOnSuccess`).
- The three timing gauges are registered but never set, so no response
  carries them (`Probe.FreshProbeSendsOnlySuccess`).
- When the retries are exhausted, 'error' is emitted in the same way at
  bootstrap and after a disconnect. Whether that is fatal depends only on the
  listener, and `Build` has none, so it rejects.
- The unit test of the performance metric uses an older class name and a
  two-argument constructor. The model follows `Metric` as the source file
  defines it, and the test's scenario is restated against it
  (`PerformanceMetric.GaugeScenario`).

## Model

| member | source | states |
|---|---|---|
| Probe.New | src/controllers/Probe.ts:59-87 | Construction never fails. `WithLogger` and `WithBrowserHandler` set exactly the flags they name, and the registry holds the success gauge and the three timing gauges, in that order. |
| Probe.SetupMetrics | src/controllers/Probe.ts:101-131 | Three navigation timing metrics, each labelled by `target` only and holding no value. |
| Probe.InitPrometheus | src/controllers/Probe.ts:80-87 | A registry that already holds a metric named like the success gauge refuses it. On success the registry is the old one followed by the success gauge and then each timing gauge, in that order. |
| Probe.RegisterAll | src/controllers/Probe.ts:84-86 | Registers gauges in order. On success, the registry is the old one followed by exactly those gauges. |
| Probe.InitPrometheusSucceeds | src/controllers/Probe.ts:60-64 | Registering the four gauges into an empty registry is never refused, because their names are pairwise distinct. |
| Probe.InitialRegistryShape | src/controllers/Probe.ts:59-131 | The four gauges registered at construction have pairwise distinct names, are labelled by `target` only, and hold no sample. |
| Probe.NewRegistersFourGauges | src/controllers/Probe.ts:59-131 | A new controller has four distinct gauge names in order and each gauge is labelled by `target` only. It holds no sample. `WithLogger` and `WithBrowserHandler` set exactly the fields they name. |
| Probe.Index | src/controllers/Probe.ts:133-193 | Only the registry changes. The content type is set iff the browser is connected. The error 500 is forwarded iff it is disconnected. The reply is rejected iff the handler is missing, no browser was ever assigned, or the connected path runs without a logger. A forwarded error or a sent snapshot leaves the registry empty. Session objects stay open exactly as the first throwing step decides. |
| Probe.FirstFailure | src/controllers/Probe.ts:145-165 | With a logger, the step that throws first is the given one. Without a logger, `logger.debug` throws unless an earlier step already threw, so the result is never later than the given step and never later than `logger.debug`. |
| Probe.Respond | src/controllers/Probe.ts:191 | A sent snapshot becomes a status 200 response whose body lists exactly that snapshot, and only a sent snapshot becomes one. A forwarded error becomes the error middleware's JSON response. A rejected handler produces no response. |
| Probe.DisconnectedRequestFails | src/controllers/Probe.ts:136-140 | When the browser is disconnected, the registry is emptied and the response is JSON 500 'playwright browser is disconnected'. No content type is set and no session is opened. |
| Probe.RequestAfterCloseFails | src/controllers/Probe.spec.ts:80-90 | After the browser handler is closed, a probe request ends as the JSON error 500 'playwright browser is disconnected'. |
| Probe.SuccessfulProbeSnapshot | src/controllers/Probe.ts:181-192 | When every step succeeds, the snapshot is the previous registry plus success = 1 for the target. From an empty registry that is the only sample. No session object is left open. |
| Probe.FailedProbeSnapshot | src/controllers/Probe.ts:185-192 | When a step throws, the snapshot is exactly success = 0 for the target, whatever the registry held. The registry is then empty. The context stays open unless creating it threw. The page stays open if it was created and its close did not complete. |
| Probe.PageLeftCases | src/controllers/Probe.ts:145-146 | Which throwing steps leave the context, and which leave the page, created but not closed. |
| Probe.SessionClosedOnlyOnSuccess | src/controllers/Probe.ts:183-189 | On the connected path, no session object is left open iff no step threw or the context was never created. |
| Probe.MissingLoggerLeavesSample | src/controllers/Probe.ts:165-188 | Without a logger, no response is sent and the success = 0 sample stays in the registry. |
| Probe.Serve | src/controllers/Probe.ts:133-193 | Requests are handled one at a time, with exactly one exchange per request. |
| Probe.ServeKeepsConfiguration | src/controllers/Probe.ts:133-193 | However many requests are served, the controller keeps its options and metrics, and its registry keeps the same gauge names. Only labelled values change. |
| Probe.ServeForwardsOnlyDisconnect | src/controllers/Probe.ts:136-140 | Over any request stream, the only error ever forwarded to the middleware is the 500 'playwright browser is disconnected'. |
| Probe.IndexKeepsQuiescent | src/controllers/Probe.ts:133-193 | One request keeps the between-requests invariant: the success gauge is registered, and a controller with a logger holds no sample. A sent snapshot is the single success sample, at 0 or 1. |
| Probe.EverySnapshotHoldsOneSample | src/controllers/Probe.ts:133-193 | By induction over any request stream from a quiescent controller, every sent snapshot holds exactly one sample: success for its own target, at 0 or 1. |
| Probe.NewIsQuiescent | src/controllers/Probe.ts:67-87 | A newly constructed controller has the success gauge registered and holds no sample. |
| Probe.NoTimingSample | src/controllers/Probe.ts:181 | A snapshot that is the single success sample holds no sample of any timing gauge, for any target label. |
| Probe.FreshProbeSendsOnlySuccess | src/controllers/Probe.ts:83-86 | For a newly constructed controller, no response ever carries a sample of the three timing gauges. |
| Probe.ClientSeesOnlySuccess | src/controllers/Probe.spec.ts:80-90 | From any quiescent controller, a newly constructed one included, and for any request stream, every 200 response lists exactly one sample: success for the requested target, at 0 or 1. Every JSON response is the 500 with body {message: 'playwright browser is disconnected', status: 500}. |
| BrowserHandler.ApplyOptions | src/handlers/browser.ts:16-18 | Options apply in order. The last option of each kind decides its field, and a field no option names keeps its value. |
| BrowserHandler.New | src/handlers/browser.ts:14-21 | The constructor leaves the counter at 0, the closing flag unset, and no browser. The endpoint and the retry bound come from the last matching option and stay unset without one. |
| BrowserHandler.ListenForErrors | src/index.ts:28-31 | Installing an 'error' listener changes nothing else. |
| BrowserHandler.IsConnected | src/handlers/browser.ts:29-31 | Reports exactly the current browser's connection status. With no browser ever assigned, the call throws. |
| BrowserHandler.ConnectLoop | src/handlers/browser.ts:41-48 | The backoff loop. Each failed call emits one 'connection_retry' and adds exactly one to the counter. The loop goes on iff the incremented counter is below the bound. Success assigns a connected browser; exhaustion leaves the browser field unchanged. |
| BrowserHandler.ConnectLoopClosedForm | src/handlers/browser.ts:41-48 | A run that fails every call makes exactly its allowed number of calls. The run connects iff some call within that allowance succeeds. Every call before the last one failed. |
| BrowserHandler.InitBrowser | src/handlers/browser.ts:39-58 | One run connects iff one of its allowed connect calls succeeds. It may make `bound - counter` calls when that exceeds 1, otherwise one. The counter grows by the number of failed calls before the first success, or by all allowed calls, and is never reset. The events are the numbered retries, then 'error' if the run gave up. On giving up the browser field is unchanged. The promise rejects iff the run gave up with no 'error' listener. |
| BrowserHandler.Build | src/handlers/browser.ts:23-27 | Construct, then connect. The build connects iff one of the first `max(bound, 1)` connect calls succeeds, with one call when no bound is set. It rejects iff it did not connect. |
| BrowserHandler.Close | src/handlers/browser.ts:33-37 | Sets the closing flag, removes the 'error' listener and disconnects the browser. It rejects iff no browser was ever assigned. The counter and the event log are untouched. |
| BrowserHandler.LoseConnection | src/handlers/browser.ts:29-31 | After the connection drops, `isConnected` reports false until a reconnect completes. |
| BrowserHandler.OnDisconnected | src/handlers/browser.ts:50-54 | After `close`, a disconnect changes nothing. Otherwise it reconnects, or gives up with 'error' as the last event. |
| BrowserHandler.RunPreservesConfiguration | src/handlers/browser.ts:19-20 | Across any sequence of events, the endpoint and the bound keep their option values. The counter only increases, the closing flag once set stays set, and the event log only grows. |
| BrowserHandler.ClosedHandlerNeverReconnects | src/handlers/browser.ts:33-37 | After `close`, no sequence of disconnect events makes a connect call or emits anything. |
| BrowserHandler.DisconnectReconnectsIff | src/handlers/browser.ts:50-54 | A disconnect triggers `initBrowser` iff `close` has not been called. |
| BrowserHandler.AllFailuresStopAtMax | src/handlers/browser.ts:46 | With the counter at 0, bound n >= 1, and every call failing, the loop stops after n calls. The counter is then n, and the events are n numbered retries followed by 'error'. |
| BrowserHandler.NoRetryBoundTriesOnce | src/handlers/browser.ts:46 | With a bound of 0, or none, one failed call ends the loop. 'error' is emitted. |
| BrowserHandler.SpentRetriesStaySpent | src/handlers/browser.ts:19 | The counter is never reset, so once it has reached the bound minus one, a reconnect gives up after its first failure. |
| BrowserHandler.HandlerScenarios | src/handlers/browser.spec.ts:5-48 | Bound 2 connects. Bound 0 against an unreachable endpoint makes `Build` reject. Bound 3, after the browser dies, gives up with the counter at 3 and emits 'error'. |
| PerformanceMetric.NewMetric | src/metrics/PerformanceMetric.ts:8-12 | The constructor stores the gauge, the entry type and the entry name unchanged. |
| PerformanceMetric.ToSeconds | src/metrics/PerformanceMetric.ts:15 | The stored value times 1000 is the largest integer not above the input in milliseconds. |
| PerformanceMetric.Set | src/metrics/PerformanceMetric.ts:14-16 | The target's value becomes the converted duration and every other label keeps its value. The entry type, the entry name, and the gauge's name, help and label names are unchanged. |
| PerformanceMetric.Reset | src/metrics/PerformanceMetric.ts:18-20 | Afterwards the gauge renders no sample. The entry type, the entry name, and the gauge's name, help and label names are unchanged. |
| PerformanceMetric.ToSecondsExamples | src/metrics/PerformanceMetric.spec.ts:30-41 | 10 ms becomes 0.01 s and 1 ms becomes 0.001 s. |
| PerformanceMetric.SubMillisecondIgnored | src/metrics/PerformanceMetric.ts:15 | set(v) and set(floor(v)) store the same value. |
| PerformanceMetric.SameMillisecond | src/metrics/PerformanceMetric.ts:15 | Two inputs store the same value iff they share their whole millisecond. |
| PerformanceMetric.NonNegative | src/metrics/PerformanceMetric.ts:15 | A non-negative input stores a non-negative value. |
| PerformanceMetric.Monotone | src/metrics/PerformanceMetric.ts:15 | The conversion preserves order. |
| PerformanceMetric.LastWriteWins | src/metrics/PerformanceMetric.ts:14-16 | Setting the same label twice keeps only the last value. |
| PerformanceMetric.SetAfterReset | src/metrics/PerformanceMetric.ts:14-20 | After a reset, one set leaves exactly that one sample. |
| PerformanceMetric.GaugeScenario | src/metrics/PerformanceMetric.spec.ts:22-53 | After 1 ms then 10 ms for "foo", the gauge holds only 0.01. A reset then leaves nothing to render. |
| ErrorMiddleware.Handle | src/middlewares/Error.ts:7-12 | The status is error.status when truthy, otherwise 500. The message is error.message when non-empty, otherwise 'something went wrong'. The body is {message, status} with the response's own status. |
| ErrorMiddleware.PassThroughIff | src/middlewares/Error.ts:7-8 | The error's own status is reported iff it is truthy. The error's own message is reported iff it is non-empty. |
| ErrorMiddleware.Idempotent | src/middlewares/Error.ts:7-12 | Feeding a response back in as an error reproduces the response: the defaults are stable. |
| ErrorMiddleware.ValidationErrorPassesThrough | src/controllers/Probe.spec.ts:44-59 | A 400 error with a message passes through unchanged in both status and message. |
| ErrorMiddleware.BareErrorDefaults | src/middlewares/Error.ts:7-8 | An error with no status (or status 0) and no message becomes 500 'something went wrong'. |
| Prom.RegisterMetric | src/controllers/Probe.ts:81 | Registration succeeds iff no metric of that name is registered. It appends the gauge and keeps names distinct. |
| Prom.ResetMetrics | src/controllers/Probe.ts:137 | `resetMetrics` keeps every registered gauge and leaves the snapshot empty. |
| Prom.SetGauge | src/controllers/Probe.ts:181 | Setting a registered gauge adds or overwrites exactly one sample of the snapshot. Setting an unregistered one changes nothing. |
| Prom.SetAddsOneSample | src/controllers/Probe.ts:187 | The snapshot after setting a registered name is the previous snapshot with that one key updated. |
| Prom.ResetLeavesNoSample | src/metrics/PerformanceMetric.ts:18-20 | Gauges that hold no value contribute no sample to the snapshot. |

## Left out

- `observeMetrics` (src/controllers/Probe.ts:14-50) runs in the page. The performance map it produces is only logged, never used.
- Playwright calls (`newContext`, `newPage`, `addInitScript`, `goto`, `waitForNavigation`, `evaluate`, `JSON.parse` of the result, and the closes) are not modelled as calls. The model reduces them to "the first step that throws", and `chromium.connect` to one outcome per call.
- The `exponential-backoff` library's delays and its own attempt limit are not modelled. That limit counts per run while the handler's counter counts across runs. So it never ends a run before the handler's `retry` predicate does, and the model keeps only the predicate.
- The exposition text, its ordering and the content-type string are not modelled. A snapshot is a map, and "content type set" is a boolean.
- Prom.RegisterMetric: gauge identity is reduced to the gauge's name. The metrics library accepts a second registration of the same gauge object and refuses only a different object with the same name, while the model refuses any second registration of a name. The exporter registers four distinctly named gauges into a fresh registry, so it never reaches that case.
- The metrics library's process-wide default registry, which a `new Gauge` also joins, is not modelled. Building a second controller would be refused there.
- Express wiring is not modelled: `App.ts`, routing (`routes`), `Home.ts`, `Logger.ts`, and request validation (`ValidateDto.ts`, `dto/probe.ts`, with its foreign URL validator). The target reaches `Probe.Index` already validated.
- `src/index.ts` is not modelled: environment bootstrap, the 'error' listener that exits the process, and the 'connection_retry' logging. Only whether an 'error' listener exists is modelled.
- Logging content and `console.log` are not modelled. Only the throw that a missing logger causes is modelled.
- The process-level effect of an unhandled promise rejection is not modelled. Node 15 or later ends the process on one, and three places produce one. Express 4 ignores the promise an async request handler returns, so a rejected `index` goes unhandled. The `disconnected` listener awaits `initBrowser()`, and with no 'error' listener the `emit('error')` there throws, so the listener's promise rejects unhandled. An explicit `initBrowser()` call that nobody awaits behaves the same. The model records only the outcome (`Reply.Rejected`, `Settled.Rejected`), and `BrowserHandler.Step`, `Probe.Serve` and `Probe.MissingLoggerLeavesSample` keep going afterwards.
- Concurrency is not modelled. Requests and handler events are processed one at a time, so interleaved requests and reconnect races are out of scope.
- IEEE-754 doubles are not modelled, including NaN or non-integer retry bounds and rounding in `/ 1000`. Conversions use Dafny `real` with `.Floor`, and retry bounds are integers or unset.
- `src/exceptions/HttpException.ts` is not part of this model. Its `status` and `message` fields are taken from how the controller and the middleware use them.

=== FILE: browser_handler.dfy ===
/** `BrowserHandler` of src/handlers/browser.ts: owns the connection to the
    remote browser, retries a failed connect under a predicate over its own
    attempt counter, reconnects when the browser disconnects unless `close`
    was called, and reports exhausted retries through an 'error' event.

    Every connect call of one `initBrowser` run is driven by a sequence of
    outcomes: call `i` (counted from 0) succeeds iff `i < |env|` and
    `env[i]`, so every call past the end of `env` fails. */
module BrowserHandler {
  import opened Wrappers

  /** The two option builders `WithWsEndpoint` and `WithMaxConnectionRetry`. */
  datatype BrowserOption = WithWsEndpoint(wsEndpoint: string) | WithMaxConnectionRetry(n: int)

  /** The remote browser object, reduced to whether it is still connected. */
  datatype Browser = Browser(connected: bool)

  /** Events the handler emits: 'connection_retry' with the attempt number
      the backoff loop passes to its `retry` callback (1 for the first
      failure of a run), and 'error'. */
  datatype Emitted = ConnectionRetry(attempt: nat) | ConnectionError

  /** How the promise returned by an asynchronous member settles. */
  datatype Settled = Resolved | Rejected

  /** The handler's fields. `None` stands for a field that was never
      assigned (`undefined`). `errorListener` records whether anyone listens
      for 'error'; `emitted` is the log of every event emitted so far. */
  datatype Handler = Handler(
    browser: Option<Browser>,
    wsEndpoint: Option<string>,
    maxConnectionRetry: Option<int>,
    attemptNumber: nat,
    isClosing: bool,
    errorListener: bool,
    emitted: seq<Emitted>)

  datatype Outcome = Outcome(handler: Handler, settled: Settled)

  /** The outcome of `initBrowser`, with whether it ended connected. */
  datatype Init = Init(handler: Handler, settled: Settled, connected: bool)

  /** The result of the backoff loop: the handler after it, whether the
      last connect call succeeded, and how many connect calls were made. */
  datatype Loop = Loop(handler: Handler, connected: bool, calls: nat)

  /** Fields no connect, disconnect or listener event touches. */
  predicate SameConfig(h: Handler, h': Handler) {
    && h'.wsEndpoint == h.wsEndpoint
    && h'.maxConnectionRetry == h.maxConnectionRetry
    && h'.isClosing == h.isClosing
    && h'.errorListener == h.errorListener
  }

  predicate IsEndpoint(o: BrowserOption) { o.WithWsEndpoint? }
  predicate IsMaxRetry(o: BrowserOption) { o.WithMaxConnectionRetry? }

  function ApplyOption(h: Handler, o: BrowserOption): (h': Handler) {
    match o
    case WithWsEndpoint(e) => h.(wsEndpoint := Some(e))
    case WithMaxConnectionRetry(n) => h.(maxConnectionRetry := Some(n))
  }

  /** The options are applied in order, so the last option of each kind
      decides its field, and a field no option names keeps its value. */
  function ApplyOptions(h: Handler, opts: seq<BrowserOption>): (h': Handler)
    ensures h'.browser == h.browser && h'.attemptNumber == h.attemptNumber
    ensures h'.isClosing == h.isClosing && h'.errorListener == h.errorListener && h'.emitted == h.emitted
    ensures (forall i :: 0 <= i < |opts| ==> !IsEndpoint(opts[i])) ==> h'.wsEndpoint == h.wsEndpoint
    ensures forall i :: 0 <= i < |opts| && IsEndpoint(opts[i])
              && (forall j :: i < j < |opts| ==> !IsEndpoint(opts[j]))
              ==> h'.wsEndpoint == Some(opts[i].wsEndpoint)
    ensures (forall i :: 0 <= i < |opts| ==> !IsMaxRetry(opts[i])) ==> h'.maxConnectionRetry == h.maxConnectionRetry
    ensures forall i :: 0 <= i < |opts| && IsMaxRetry(opts[i])
              && (forall j :: i < j < |opts| ==> !IsMaxRetry(opts[j]))
              ==> h'.maxConnectionRetry == Some(opts[i].n)
    decreases |opts|
  {
    if |opts| == 0 then h
    else
      var h' := ApplyOptions(ApplyOption(h, opts[0]), opts[1..]);
      assert forall i :: 1 <= i < |opts| ==> opts[i] == opts[1..][i - 1];
      h'
  }

  /** The constructor: options first, then the counter and the closing flag. */
  function New(opts: seq<BrowserOption>): (h: Handler)
    ensures h.attemptNumber == 0 && !h.isClosing
    ensures h.browser == None && !h.errorListener && h.emitted == []
    ensures (forall i :: 0 <= i < |opts| ==> !IsEndpoint(opts[i])) ==> h.wsEndpoint == None
    ensures forall i :: 0 <= i < |opts| && IsEndpoint(opts[i])
              && (forall j :: i < j < |opts| ==> !IsEndpoint(opts[j]))
              ==> h.wsEndpoint == Some(opts[i].wsEndpoint)
    ensures (forall i :: 0 <= i < |opts| ==> !IsMaxRetry(opts[i])) ==> h.maxConnectionRetry == None
    ensures forall i :: 0 <= i < |opts| && IsMaxRetry(opts[i])
              && (forall j :: i < j < |opts| ==> !IsMaxRetry(opts[j]))
              ==> h.maxConnectionRetry == Some(opts[i].n)
  {
    var unset := Handler(None, None, None, 0, false, false, []);
    ApplyOptions(unset, opts).(attemptNumber := 0, isClosing := false)
  }

  /** `bh.on('error', ...)`. */
  function ListenForErrors(h: Handler): (h': Handler)
    ensures h'.errorListener
    ensures h'.(errorListener := h.errorListener) == h
  {
    h.(errorListener := true)
  }

  /** `isConnected()`: the current browser's own status; `None` when no
      browser was ever assigned, where the call throws. */
  function IsConnected(h: Handler): (r: Option<bool>)
    ensures r.None? <==> h.browser.None?
    ensures r.Some? ==> r.value == h.browser.value.connected
  {
    match h.browser
    case None => None
    case Some(b) => Some(b.connected)
  }

  /** The `retry` callback's verdict once the counter has been incremented:
      `attemptNumber < maxConnectionRetry`, false when the bound is unset. */
  predicate RetryAllowed(attemptNumber: int, max: Option<int>) {
    max.Some? && attemptNumber < max.value
  }

  predicate Succeeds(env: seq<bool>, i: nat) {
    i < |env| && env[i]
  }

  /** The 'connection_retry' events of failures `from + 1` to `from + k`. */
  function RetryNotices(from: nat, k: nat): (s: seq<Emitted>)
    ensures |s| == k
    ensures forall i :: 0 <= i < k ==> s[i] == ConnectionRetry(from + i + 1)
  {
    seq(k, i requires 0 <= i < k => ConnectionRetry(from + i + 1))
  }

  function Budget(h: Handler): (n: nat) {
    if RetryAllowed(h.attemptNumber, h.maxConnectionRetry) then h.maxConnectionRetry.value - h.attemptNumber else 0
  }

  /** The backoff loop from connect call `tried` on. A failed call emits
      'connection_retry', increments the counter by one and asks the retry
      predicate whether to go on; a successful call assigns the browser. */
  function ConnectLoop(h: Handler, env: seq<bool>, tried: nat): (l: Loop)
    ensures l.calls >= 1
    ensures SameConfig(h, l.handler)
    ensures l.connected <==> Succeeds(env, tried + l.calls - 1)
    ensures forall i :: tried <= i < tried + l.calls - 1 ==> !Succeeds(env, i)
    ensures var failures := if l.connected then l.calls - 1 else l.calls;
            && l.handler.attemptNumber == h.attemptNumber + failures
            && l.handler.emitted == h.emitted + RetryNotices(tried, failures)
    ensures l.connected ==> l.handler.browser == Some(Browser(true))
    ensures l.connected && l.calls > 1 ==> RetryAllowed(l.handler.attemptNumber, h.maxConnectionRetry)
    ensures !l.connected ==> l.handler.browser == h.browser
    ensures !l.connected ==> !RetryAllowed(l.handler.attemptNumber, h.maxConnectionRetry)
    ensures !l.connected && l.calls > 1 ==> RetryAllowed(l.handler.attemptNumber - 1, h.maxConnectionRetry)
    decreases Budget(h)
  {
    if Succeeds(env, tried) then
      Loop(h.(browser := Some(Browser(true))), true, 1)
    else
      var h1 := h.(attemptNumber := h.attemptNumber + 1, emitted := h.emitted + [ConnectionRetry(tried + 1)]);
      if RetryAllowed(h1.attemptNumber, h1.maxConnectionRetry) then
        var l := ConnectLoop(h1, env, tried + 1);
        assert [ConnectionRetry(tried + 1)] + RetryNotices(tried + 1, l.handler.attemptNumber - h1.attemptNumber)
            == RetryNotices(tried, l.handler.attemptNumber - h.attemptNumber);
        l.(calls := l.calls + 1)
      else
        Loop(h1, false, 1)
  }

  /** How many connect calls one run of the loop makes when every call
      fails: the first call always happens, and the run goes on while the
      incremented counter stays below the bound. */
  function Allowed(h: Handler): (n: nat)
    ensures n >= 1
    ensures h.maxConnectionRetry.Some? && h.attemptNumber + 1 < h.maxConnectionRetry.value
            ==> h.attemptNumber + n == h.maxConnectionRetry.value
  {
    if RetryAllowed(h.attemptNumber + 1, h.maxConnectionRetry) then h.maxConnectionRetry.value - h.attemptNumber else 1
  }

  /** The loop connects iff one of the first `Allowed(h)` calls succeeds;
      it gives up only after all of them failed. */
  lemma ConnectLoopClosedForm(h: Handler, env: seq<bool>, tried: nat)
    ensures var l := ConnectLoop(h, env, tried);
            && l.calls <= Allowed(h)
            && (!l.connected ==> l.calls == Allowed(h))
            && (forall i :: tried <= i < tried + l.calls - 1 ==> !Succeeds(env, i))
            && (l.connected <==> exists i :: tried <= i < tried + Allowed(h) && Succeeds(env, i))
  {
    var l := ConnectLoop(h, env, tried);
    if !l.connected {
      assert forall i :: tried <= i < tried + l.calls ==> !Succeeds(env, i);
    }
  }

  /** `initBrowser()`: run the backoff loop; on exhaustion emit 'error'
      and leave the browser field as it was. Emitting 'error' with no
      listener throws, so the returned promise rejects exactly when the loop
      gave up and nobody listens for 'error'. `connected` tells whether the
      last connect call succeeded. */
  function InitBrowser(h: Handler, env: seq<bool>): (o: Init)
    ensures SameConfig(h, o.handler)
    ensures o.handler.attemptNumber >= h.attemptNumber
    ensures h.emitted <= o.handler.emitted
    ensures |o.handler.emitted| - |h.emitted| == o.handler.attemptNumber - h.attemptNumber + (if o.connected then 0 else 1)
    ensures o.connected ==> IsConnected(o.handler) == Some(true)
    ensures !o.connected ==> o.handler.browser == h.browser
    ensures !o.connected ==> o.handler.emitted[|o.handler.emitted| - 1] == ConnectionError
    ensures !o.connected ==> !RetryAllowed(o.handler.attemptNumber, h.maxConnectionRetry)
    ensures o.settled == Rejected <==> !o.connected && !h.errorListener
    ensures o.connected <==> exists i :: 0 <= i < Allowed(h) && Succeeds(env, i)
    ensures var k := o.handler.attemptNumber - h.attemptNumber;
            && (forall i :: 0 <= i < k ==> !Succeeds(env, i))
            && (o.connected ==> Succeeds(env, k))
            && (!o.connected ==> k == Allowed(h))
            && o.handler.emitted == h.emitted + RetryNotices(0, k) + (if o.connected then [] else [ConnectionError])
  {
    ConnectLoopClosedForm(h, env, 0);
    var l := ConnectLoop(h, env, 0);
    if l.connected then
      Init(l.handler, Resolved, true)
    else
      var h' := l.handler.(emitted := l.handler.emitted + [ConnectionError]);
      Init(h', if h'.errorListener then Resolved else Rejected, false)
  }

  /** `BrowserHandler.Build(...)`: construct, then connect. Nobody listens
      for 'error' yet, so the build rejects exactly when no connect call
      succeeded. */
  function Build(opts: seq<BrowserOption>, env: seq<bool>): (o: Init)
    ensures o.handler.wsEndpoint == New(opts).wsEndpoint
    ensures o.handler.maxConnectionRetry == New(opts).maxConnectionRetry
    ensures o.settled == Rejected <==> !o.connected
    ensures o.connected <==> IsConnected(o.handler) == Some(true)
    ensures var max := New(opts).maxConnectionRetry;
            o.connected <==> exists i :: 0 <= i < (if max.Some? && max.value >= 1 then max.value else 1) && Succeeds(env, i)
  {
    InitBrowser(New(opts), env)
  }

  /** `close()`: set the closing flag, drop every listener of the handler
      ('error' included), then close the browser, which disconnects it.
      With no browser ever assigned, that last step throws. */
  function Close(h: Handler): (o: Outcome)
    ensures o.handler.isClosing && !o.handler.errorListener
    ensures IsConnected(o.handler) != Some(true)
    ensures o.settled == Rejected <==> h.browser.None?
    ensures o.handler.wsEndpoint == h.wsEndpoint && o.handler.maxConnectionRetry == h.maxConnectionRetry
    ensures o.handler.attemptNumber == h.attemptNumber && o.handler.emitted == h.emitted
  {
    var h' := h.(isClosing := true, errorListener := false);
    match h.browser
    case None => Outcome(h', Rejected)
    case Some(_) => Outcome(h'.(browser := Some(Browser(false))), Resolved)
  }

  /** The remote browser drops the connection: the current browser object
      reports itself disconnected from then on. */
  function LoseConnection(h: Handler): (h': Handler)
    requires h.browser.Some?
    ensures IsConnected(h') == Some(false)
    ensures h' == h.(browser := h'.browser)
  {
    h.(browser := Some(Browser(false)))
  }

  /** The 'disconnected' listener every connected browser carries: it runs
      `initBrowser` again unless `close` has been called. */
  function OnDisconnected(h: Handler, env: seq<bool>): (o: Init)
    ensures h.isClosing ==> o.handler == h && o.settled == Resolved
    ensures !h.isClosing ==> o.connected ==> IsConnected(o.handler) == Some(true)
    ensures !h.isClosing ==> o.connected || (|o.handler.emitted| > |h.emitted|
                                             && o.handler.emitted[|o.handler.emitted| - 1] == ConnectionError)
  {
    if h.isClosing then Init(h, Resolved, false) else InitBrowser(h, env)
  }

  /** The events that drive a handler after construction. */
  datatype Event =
    | Connect(env: seq<bool>)          // an explicit `initBrowser()` call
    | ConnectionLost(env: seq<bool>)   // the browser disconnects; `env` feeds a reconnect
    | CloseCalled
    | ErrorListenerAdded

  function Step(h: Handler, e: Event): (h': Handler) {
    match e
    case Connect(env) => InitBrowser(h, env).handler
    case ConnectionLost(env) =>
      if IsConnected(h) == Some(true) then OnDisconnected(LoseConnection(h), env).handler else h
    case CloseCalled => Close(h).handler
    case ErrorListenerAdded => ListenForErrors(h)
  }

  function Run(h: Handler, es: seq<Event>): (h': Handler)
    decreases |es|
  {
    if |es| == 0 then h else Run(Step(h, es[0]), es[1..])
  }

  /** Whatever happens after construction, the endpoint and the retry bound
      keep their option values, the attempt counter never decreases (a
      successful connect does not reset it), the closing flag once set stays
      set, and the event log only grows. */
  lemma {:induction false} RunPreservesConfiguration(h: Handler, es: seq<Event>)
    ensures Run(h, es).wsEndpoint == h.wsEndpoint
    ensures Run(h, es).maxConnectionRetry == h.maxConnectionRetry
    ensures Run(h, es).attemptNumber >= h.attemptNumber
    ensures h.isClosing ==> Run(h, es).isClosing
    ensures h.emitted <= Run(h, es).emitted
    decreases |es|
  {
    if |es| > 0 {
      var h1 := Step(h, es[0]);
      assert h1.wsEndpoint == h.wsEndpoint && h1.maxConnectionRetry == h.maxConnectionRetry;
      assert h1.attemptNumber >= h.attemptNumber;
      assert h.isClosing ==> h1.isClosing;
      assert h.emitted <= h1.emitted;
      RunPreservesConfiguration(h1, es[1..]);
    }
  }

  /** Once `close` has been called, no number of disconnect events makes a
      connect call: the counter, the event log and every other field except
      the browser's status stay as they were, and the browser never
      reports itself connected again unless it already did. */
  lemma {:induction false} ClosedHandlerNeverReconnects(h: Handler, es: seq<Event>)
    requires h.isClosing
    requires forall i :: 0 <= i < |es| ==> es[i].ConnectionLost?
    ensures Run(h, es).(browser := h.browser) == h
    ensures IsConnected(Run(h, es)) == Some(true) ==> IsConnected(h) == Some(true)
    decreases |es|
  {
    if |es| > 0 {
      var h1 := Step(h, es[0]);
      assert h1.(browser := h.browser) == h;
      assert IsConnected(h1) == Some(true) ==> IsConnected(h) == Some(true);
      assert forall i :: 0 <= i < |es[1..]| ==> es[1..][i] == es[i + 1];
      ClosedHandlerNeverReconnects(h1, es[1..]);
    }
  }

  /** A disconnect makes the handler do something (connect again, or emit
      retries and 'error') iff `close` has not been called. */
  lemma DisconnectReconnectsIff(h: Handler, env: seq<bool>)
    requires IsConnected(h) == Some(true)
    ensures Step(h, ConnectionLost(env)) != LoseConnection(h) <==> !h.isClosing
  {
    var d := LoseConnection(h);
    if !h.isClosing {
      var o := InitBrowser(d, env);
      if !o.connected {
        assert |o.handler.emitted| > |d.emitted|;
      }
    }
  }

  /** With every connect call failing and the counter starting at 0, a bound
      of n >= 1 stops the loop after exactly n calls, with the counter at n,
      n 'connection_retry' events numbered 1..n, then 'error'. */
  lemma AllFailuresStopAtMax(h: Handler, n: int)
    requires h.attemptNumber == 0 && h.maxConnectionRetry == Some(n) && n >= 1
    ensures var o := InitBrowser(h, []);
            && !o.connected
            && o.handler.attemptNumber == n
            && o.handler.emitted == h.emitted + RetryNotices(0, n) + [ConnectionError]
            && o.handler.browser == h.browser
  {
    var l := ConnectLoop(h, [], 0);
    assert !Succeeds([], l.calls - 1);
    assert l.handler.attemptNumber >= n;
  }

  /** A bound of 0 (or no bound at all) means one connect call: its failure
      ends the loop and 'error' is emitted. */
  lemma NoRetryBoundTriesOnce(h: Handler, env: seq<bool>)
    requires h.maxConnectionRetry.None? || h.maxConnectionRetry.value <= h.attemptNumber + 1
    requires !Succeeds(env, 0)
    ensures var o := InitBrowser(h, env);
            && !o.connected
            && o.handler.attemptNumber == h.attemptNumber + 1
            && o.handler.emitted == h.emitted + [ConnectionRetry(1), ConnectionError]
  {
    var l := ConnectLoop(h, env, 0);
    assert l.calls == 1;
  }

  /** Because the counter is never reset, failures spent while bootstrapping
      are missing later: once it has reached max - 1, a reconnect whose first
      call fails gives up at once, however many calls max allows. */
  lemma SpentRetriesStaySpent(h: Handler, env: seq<bool>, m: int)
    requires h.maxConnectionRetry == Some(m) && IsConnected(h) == Some(true) && !h.isClosing
    requires h.attemptNumber + 1 >= m
    requires !Succeeds(env, 0)
    ensures var h' := Step(h, ConnectionLost(env));
            && IsConnected(h') == Some(false)
            && h'.attemptNumber == h.attemptNumber + 1
            && h'.emitted == h.emitted + [ConnectionRetry(1), ConnectionError]
  {
    NoRetryBoundTriesOnce(LoseConnection(h), env);
  }

  /** The handler's unit tests: a bound of 2 with a reachable browser
      connects; a bound of 0 with an unreachable one makes `Build` reject;
      a bound of 3 connects, and after the browser goes away for good the
      reconnect gives up with the counter at 3 and emits 'error' to the
      listener the test installed. */
  lemma HandlerScenarios(endpoint: string)
    ensures var o := Build([WithWsEndpoint(endpoint), WithMaxConnectionRetry(2)], [true]);
            && IsConnected(o.handler) == Some(true)
            && o.handler.maxConnectionRetry == Some(2)
            && o.settled == Resolved
    ensures Build([WithWsEndpoint(endpoint), WithMaxConnectionRetry(0)], []).settled == Rejected
    ensures var b := Build([WithWsEndpoint(endpoint), WithMaxConnectionRetry(3)], [true]);
            var h := Step(ListenForErrors(b.handler), ConnectionLost([]));
            && IsConnected(h) == Some(false)
            && h.attemptNumber == 3
            && h.emitted[|h.emitted| - 1] == ConnectionError
  {
    var opts2 := [WithWsEndpoint(endpoint), WithMaxConnectionRetry(2)];
    assert IsMaxRetry(opts2[1]) && opts2[1].n == 2;
    var opts := [WithWsEndpoint(endpoint), WithMaxConnectionRetry(3)];
    var b := Build(opts, [true]);
    assert opts[1].n == 3;
    assert b.handler.attemptNumber == 0;
    AllFailuresStopAtMax(LoseConnection(ListenForErrors(b.handler)), 3);
  }
}

=== FILE: error_middleware.dfy ===
/** `ErrorMiddleware` of src/middlewares/Error.ts: turns an error passed to
    `next(err)` into a JSON error response. A status or message that is
    falsy in JavaScript is replaced by a default. */
module ErrorMiddleware {
  import opened Wrappers

  const DefaultStatus: int := 500
  const DefaultMessage: string := "something went wrong"

  /** The error handed to the middleware. `status` is `None` when the error
      object carries no status at all (a plain `Error`). */
  datatype HttpException = HttpException(status: Option<int>, message: string)

  /** The JSON body `{message, status}`. */
  datatype Body = Body(message: string, status: int)

  datatype ErrorResponse = ErrorResponse(status: int, body: Body)

  /** JavaScript truthiness of the status: present and not zero. */
  predicate StatusTruthy(e: HttpException) {
    e.status.Some? && e.status.value != 0
  }

  /** JavaScript truthiness of the message: not the empty string. */
  predicate MessageTruthy(e: HttpException) {
    |e.message| > 0
  }

  function Handle(e: HttpException): (r: ErrorResponse)
    ensures StatusTruthy(e) ==> r.status == e.status.value
    ensures !StatusTruthy(e) ==> r.status == DefaultStatus
    ensures MessageTruthy(e) ==> r.body.message == e.message
    ensures !MessageTruthy(e) ==> r.body.message == DefaultMessage
    ensures r.body.status == r.status
    ensures r.status != 0 && |r.body.message| > 0
  {
    var status := if StatusTruthy(e) then e.status.value else DefaultStatus;
    var message := if MessageTruthy(e) then e.message else DefaultMessage;
    ErrorResponse(status, Body(message, status))
  }

  /** The response reports the error's own status iff that status is
      truthy, and the error's own message iff that message is truthy. */
  lemma PassThroughIff(e: HttpException)
    ensures e.status == Some(Handle(e).status) <==> StatusTruthy(e)
    ensures Handle(e).body.message == e.message <==> MessageTruthy(e)
  {
  }

  /** Feeding a response back in as an error reproduces it: the defaults
      are applied once and are then stable. */
  lemma Idempotent(e: HttpException)
    ensures var r := Handle(e);
            Handle(HttpException(Some(r.status), r.body.message)) == r
  {
  }

  /** A 400 validation error with a message passes through unchanged. */
  lemma ValidationErrorPassesThrough(message: string)
    requires |message| > 0
    ensures Handle(HttpException(Some(400), message)) == ErrorResponse(400, Body(message, 400))
  {
  }

  /** An error without status or message becomes the generic 500. */
  lemma BareErrorDefaults()
    ensures Handle(HttpException(None, "")) == ErrorResponse(500, Body("something went wrong", 500))
    ensures Handle(HttpException(Some(0), "")) == ErrorResponse(500, Body("something went wrong", 500))
  {
  }
}

=== FILE: performance_metric.dfy ===
/** `Metric` of src/metrics/PerformanceMetric.ts: a gauge paired with the
    browser performance entry it reports, whose `set` takes a duration in
    milliseconds and stores it in seconds with millisecond precision. */
module PerformanceMetric {
  import Prom

  /** The `entryType` argument of the constructor. */
  datatype EntryType = Navigation | Paint

  datatype Metric = Metric(metric: Prom.Gauge, performanceEntryType: EntryType, performanceEntryName: string)

  /** The constructor keeps its three arguments as they are. */
  function NewMetric(metric: Prom.Gauge, entryType: EntryType, entryName: string): (m: Metric)
    ensures m.metric == metric
    ensures m.performanceEntryType == entryType && m.performanceEntryName == entryName
  {
    Metric(metric, entryType, entryName)
  }

  /** `Math.floor(value) / 1000`: whole milliseconds, expressed in seconds.
      The result times 1000 is the largest integer not above `ms`. */
  function ToSeconds(ms: real): (s: real)
    ensures (1000.0 * s).Floor as real == 1000.0 * s
    ensures 1000.0 * s <= ms < 1000.0 * s + 1.0
  {
    (ms.Floor as real) / 1000.0
  }

  /** `set({target}, value)`: the gauge's value for `target` becomes the
      converted duration; every other label, and the gauge's name, help and
      label names, keep their values. */
  function Set(m: Metric, target: string, value: real): (m': Metric)
    ensures m'.performanceEntryType == m.performanceEntryType
    ensures m'.performanceEntryName == m.performanceEntryName
    ensures m'.metric.(values := m.metric.values) == m.metric
    ensures m'.metric.values == m.metric.values[target := ToSeconds(value)]
  {
    m.(metric := Prom.Set(m.metric, target, ToSeconds(value)))
  }

  /** `reset()`: the gauge keeps no labelled value, so it renders no sample. */
  function Reset(m: Metric): (m': Metric)
    ensures m'.performanceEntryType == m.performanceEntryType
    ensures m'.performanceEntryName == m.performanceEntryName
    ensures m'.metric.(values := m.metric.values) == m.metric
    ensures |Prom.GaugeSamples(m'.metric)| == 0
  {
    m.(metric := Prom.Reset(m.metric))
  }

  /** 10 ms is stored as 0.01 s and 1 ms as 0.001 s. */
  lemma ToSecondsExamples()
    ensures ToSeconds(10.0) == 0.01
    ensures ToSeconds(1.0) == 0.001
    ensures ToSeconds(1234.9) == 1.234
  {
    assert (10.0).Floor == 10;
    assert (1.0).Floor == 1;
    assert (1234.9).Floor == 1234;
  }

  /** The sub-millisecond part of the input never reaches the gauge. */
  lemma SubMillisecondIgnored(ms: real)
    ensures ToSeconds(ms) == ToSeconds(ms.Floor as real)
  {
  }

  /** A non-negative duration is stored as a non-negative value. */
  lemma NonNegative(ms: real)
    requires ms >= 0.0
    ensures ToSeconds(ms) >= 0.0
  {
  }

  /** The conversion preserves order. */
  lemma Monotone(a: real, b: real)
    requires a <= b
    ensures ToSeconds(a) <= ToSeconds(b)
  {
    assert a.Floor as real <= b < b.Floor as real + 1.0;
    assert a.Floor <= b.Floor;
  }

  /** Two inputs within the same whole millisecond are stored identically,
      and inputs a millisecond or more apart are not. */
  lemma SameMillisecond(a: real, b: real)
    ensures ToSeconds(a) == ToSeconds(b) <==> a.Floor == b.Floor
  {
  }

  /** Setting the same label twice keeps only the last value. */
  lemma LastWriteWins(m: Metric, target: string, first: real, second: real)
    ensures Set(Set(m, target, first), target, second) == Set(m, target, second)
  {
  }

  /** Setting a label after a reset leaves exactly that one sample. */
  lemma SetAfterReset(m: Metric, target: string, value: real)
    ensures Prom.GaugeSamples(Set(Reset(m), target, value).metric)
         == map[Prom.SampleKey(m.metric.name, target) := ToSeconds(value)]
  {
    var g := Set(Reset(m), target, value).metric;
    Prom.SingleValueSamples(g, target, ToSeconds(value));
  }

  /** The scenario of the metric's unit test: after writing 1 ms and then
      10 ms for "foo", the gauge renders the single sample 0.01; a reset
      then leaves it with nothing to render. */
  lemma GaugeScenario(help: string)
    ensures var g := Prom.NewGauge("test_probe_seconds", help, [Prom.TargetLabel]);
            var m := Set(Set(NewMetric(g, Navigation, "duration"), "foo", 1.0), "foo", 10.0);
            && m.metric.values == map["foo" := 0.01]
            && |Prom.GaugeSamples(Reset(m).metric)| == 0
  {
    ToSecondsExamples();
  }
}

=== FILE: probe.dfy ===
/** The `/probe` controller of src/controllers/Probe.ts: its construction
    (options, then registration of four gauges) and its `index` request
    handler, which checks the browser connection, runs the probe steps, and
    sends the registry snapshot, resetting the registry around it.

    The browser steps of a probe are driven by `failure`, the first step
    that throws (`None` when none does). The browser handler the probe was
    given is passed in with each request, in the state it has at that
    moment. */
module Probe {
  import opened Wrappers
  import Prom
  import PerformanceMetric
  import BrowserHandler
  import ErrorMiddleware

  const SuccessMetricName: string := "synthetic_probe_success"
  const DurationMetricName: string := "synthetic_probe_duration_seconds"
  const DomCompleteMetricName: string := "synthetic_probe_dom_complete_duration_seconds"
  const DomInteractiveMetricName: string := "synthetic_probe_dom_interactive_duration_seconds"
  const DisconnectedMessage: string := "playwright browser is disconnected"

  /** What the error middleware renders for the disconnect error. */
  const DisconnectedResponse: ErrorMiddleware.ErrorResponse :=
    ErrorMiddleware.ErrorResponse(500, ErrorMiddleware.Body(DisconnectedMessage, 500))
  const SuccessHelp: string := "Displays whether or not the probe was a success"
  const DurationHelp: string := "Represents how long, in seconds, it took for the probe complete."
  const DomCompleteHelp: string := "Represents how long, in seconds, it took for the DOM to changes to 'complete' state."
  const DomInteractiveHelp: string := "Represents how long, in seconds, it took for the DOM to changes to 'interactive' state."

  /** The option builders `WithLogger` and `WithBrowserHandler`; only
      whether each field ends up set matters to the handler. */
  datatype ProbeOption = WithLogger | WithBrowserHandler

  /** The controller's state: which optional fields were set, the registry
      (the single owner of every gauge value), and the three duration
      metrics of `setupMetrics`. */
  datatype Probe = Probe(
    hasLogger: bool,
    hasBrowserHandler: bool,
    registry: Prom.Registry,
    metrics: seq<PerformanceMetric.Metric>)

  /** The statements of the `try` block that can throw, in program order.
      `LogDebug` throws when no logger was set. */
  datatype Step =
    | NewContext | NewPage | AddInitScript | Goto | AwaitNavigation
    | Evaluate | ParseResult | LogDebug | ClosePage | CloseContext

  /** What `index` does with the request: send the snapshot with status 200,
      forward an error to `next`, or settle its promise as rejected without
      writing any response. */
  datatype Reply =
    | Sent(body: map<Prom.SampleKey, real>)
    | Forwarded(error: ErrorMiddleware.HttpException)
    | Rejected

  /** One request: the controller after it, the reply, whether the
      exposition content type was set on the response, and which browser
      session objects were left open. */
  datatype Exchange = Exchange(
    probe: Probe,
    reply: Reply,
    contentTypeSet: bool,
    contextOpen: bool,
    pageOpen: bool)

  function Position(s: Step): (n: nat) {
    match s
    case NewContext => 0
    case NewPage => 1
    case AddInitScript => 2
    case Goto => 3
    case AwaitNavigation => 4
    case Evaluate => 5
    case ParseResult => 6
    case LogDebug => 7
    case ClosePage => 8
    case CloseContext => 9
  }

  /** The step that actually throws first: the given one, unless a missing
      logger makes `LogDebug` throw earlier. */
  function FirstFailure(hasLogger: bool, failure: Option<Step>): (f: Option<Step>)
    ensures hasLogger ==> f == failure
    ensures !hasLogger ==> f.Some? && Position(f.value) <= Position(LogDebug)
    ensures f.Some? && f != failure ==> f == Some(LogDebug)
    ensures f.Some? && failure.Some? ==> Position(f.value) <= Position(failure.value)
  {
    if !hasLogger && (failure.None? || Position(failure.value) > Position(LogDebug)) then Some(LogDebug)
    else failure
  }

  /** The context exists once `newContext` returned; on the failure path it
      is never closed. */
  predicate ContextLeft(s: Step) {
    Position(s) > Position(NewContext)
  }

  /** The page exists once `newPage` returned and is closed only when
      `page.close()` returned. */
  predicate PageLeft(s: Step) {
    Position(NewPage) < Position(s) <= Position(ClosePage)
  }

  function SuccessGauge(): (g: Prom.Gauge) {
    Prom.NewGauge(SuccessMetricName, SuccessHelp, [Prom.TargetLabel])
  }

  /** `setupMetrics()`: the three navigation timing gauges. */
  function SetupMetrics(): (ms: seq<PerformanceMetric.Metric>)
    ensures |ms| == 3
    ensures forall i :: 0 <= i < 3 ==> ms[i].performanceEntryType == PerformanceMetric.Navigation
    ensures forall i :: 0 <= i < 3 ==> ms[i].metric.labelNames == [Prom.TargetLabel] && |ms[i].metric.values| == 0
  {
    [
      PerformanceMetric.NewMetric(
        Prom.NewGauge(DurationMetricName,
          DurationHelp, [Prom.TargetLabel]),
        PerformanceMetric.Navigation, "duration"),
      PerformanceMetric.NewMetric(
        Prom.NewGauge(DomCompleteMetricName,
          DomCompleteHelp, [Prom.TargetLabel]),
        PerformanceMetric.Navigation, "domComplete"),
      PerformanceMetric.NewMetric(
        Prom.NewGauge(DomInteractiveMetricName,
          DomInteractiveHelp, [Prom.TargetLabel]),
        PerformanceMetric.Navigation, "domInteractive")
    ]
  }

  function MetricGauges(ms: seq<PerformanceMetric.Metric>): (gs: seq<Prom.Gauge>)
    ensures |gs| == |ms|
    ensures forall i :: 0 <= i < |ms| ==> gs[i] == ms[i].metric
  {
    seq(|ms|, i requires 0 <= i < |ms| => ms[i].metric)
  }

  /** Registers the gauges one after another; the first refusal wins. */
  function RegisterAll(r: Prom.Registry, gs: seq<Prom.Gauge>): (res: Result<Prom.Registry, string>)
    ensures res.Success? ==> res.value.gauges == r.gauges + gs
    decreases |gs|
  {
    if |gs| == 0 then Success(r)
    else
      var r1 :- Prom.RegisterMetric(r, gs[0]);
      var r2 :- RegisterAll(r1, gs[1..]);
      assert r2.gauges == r.gauges + gs by {
        assert gs == [gs[0]] + gs[1..];
      }
      Success(r2)
  }

  /** `initPrometheus()`: the success gauge, then the three timing gauges.
      A registry that already knows the success metric refuses it. */
  function InitPrometheus(r: Prom.Registry, ms: seq<PerformanceMetric.Metric>): (res: Result<Prom.Registry, string>)
    ensures Prom.Registered(r, SuccessMetricName) ==> res.Failure?
    ensures res.Success? ==> res.value.gauges == r.gauges + [SuccessGauge()] + MetricGauges(ms)
  {
    var r1 :- Prom.RegisterMetric(r, SuccessGauge());
    RegisterAll(r1, MetricGauges(ms))
  }

  /** The constructor: apply the options, then set up the registry. The
      four metric names are pairwise distinct, so construction never fails. */
  function New(opts: seq<ProbeOption>): (r: Result<Probe, string>)
    ensures r.Success?
    ensures r.value.hasLogger <==> WithLogger in opts
    ensures r.value.hasBrowserHandler <==> WithBrowserHandler in opts
    ensures Prom.Names(r.value.registry.gauges)
            == [SuccessMetricName, DurationMetricName, DomCompleteMetricName, DomInteractiveMetricName]
  {
    var metrics := SetupMetrics();
    InitPrometheusSucceeds();
    var registry := InitPrometheus(Prom.Registry([]), metrics).value;
    Success(Probe(WithLogger in opts, WithBrowserHandler in opts, registry, metrics))
  }

  /** The probe steps of the connected path, starting from registry `r`:
      on success the success gauge is set to 1; on a throw the registry is
      reset and the success gauge set to 0. */
  function RunSteps(r: Prom.Registry, target: string, first: Option<Step>): (r': Prom.Registry) {
    match first
    case None => Prom.SetGauge(r, SuccessMetricName, target, 1.0)
    case Some(_) => Prom.SetGauge(Prom.ResetMetrics(r), SuccessMetricName, target, 0.0)
  }

  /** `index`, the request handler. */
  function Index(p: Probe, bh: BrowserHandler.Handler, target: string, failure: Option<Step>): (x: Exchange)
    ensures x.probe == p.(registry := x.probe.registry)
    ensures Prom.Names(x.probe.registry.gauges) == Prom.Names(p.registry.gauges)
    ensures x.contentTypeSet <==> p.hasBrowserHandler && BrowserHandler.IsConnected(bh) == Some(true)
    ensures x.reply.Rejected? <==>
              !p.hasBrowserHandler || BrowserHandler.IsConnected(bh).None? || (x.contentTypeSet && !p.hasLogger)
    ensures x.reply.Rejected? && !x.contentTypeSet ==> x.probe == p
    ensures x.reply.Forwarded? <==> p.hasBrowserHandler && BrowserHandler.IsConnected(bh) == Some(false)
    ensures x.reply.Forwarded? ==>
              x.reply.error == ErrorMiddleware.HttpException(Some(500), DisconnectedMessage)
              && |Prom.Metrics(x.probe.registry)| == 0
    ensures x.reply.Sent? ==> |Prom.Metrics(x.probe.registry)| == 0
    ensures x.contextOpen <==> x.contentTypeSet && FirstFailure(p.hasLogger, failure).Some?
                               && ContextLeft(FirstFailure(p.hasLogger, failure).value)
    ensures x.pageOpen <==> x.contentTypeSet && FirstFailure(p.hasLogger, failure).Some?
                            && PageLeft(FirstFailure(p.hasLogger, failure).value)
  {
    if !p.hasBrowserHandler then
      Exchange(p, Rejected, false, false, false)
    else
      match BrowserHandler.IsConnected(bh)
      case None =>
        Exchange(p, Rejected, false, false, false)
      case Some(false) =>
        Exchange(p.(registry := Prom.ResetMetrics(p.registry)),
                 Forwarded(ErrorMiddleware.HttpException(Some(500), DisconnectedMessage)), false, false, false)
      case Some(true) =>
        var first := FirstFailure(p.hasLogger, failure);
        var r := RunSteps(p.registry, target, first);
        var contextOpen := first.Some? && ContextLeft(first.value);
        var pageOpen := first.Some? && PageLeft(first.value);
        if first.Some? && !p.hasLogger then
          Exchange(p.(registry := r), Rejected, true, contextOpen, pageOpen)
        else
          Exchange(p.(registry := Prom.ResetMetrics(r)), Sent(Prom.Metrics(r)), true, contextOpen, pageOpen)
  }

  /** What reaches the client: the exposition page with status 200, the
      JSON error the error middleware renders, or nothing at all. */
  datatype Response =
    | Exposition(status: int, samples: map<Prom.SampleKey, real>)
    | Json(error: ErrorMiddleware.ErrorResponse)
    | NoResponse

  function Respond(reply: Reply): (resp: Response)
    ensures reply.Sent? <==> resp.Exposition? && resp.status == 200
    ensures reply.Sent? ==> resp.samples == reply.body
    ensures reply.Forwarded? ==> resp == Json(ErrorMiddleware.Handle(reply.error))
    ensures reply.Rejected? <==> resp.NoResponse?
  {
    match reply
    case Sent(body) => Exposition(200, body)
    case Forwarded(e) => Json(ErrorMiddleware.Handle(e))
    case Rejected => NoResponse
  }

  /** The only sample a response may carry: the success gauge for the
      requested target, at 0 or 1. */
  predicate SingleSuccessSample(body: map<Prom.SampleKey, real>, target: string) {
    && body.Keys == {Prom.SampleKey(SuccessMetricName, target)}
    && body[Prom.SampleKey(SuccessMetricName, target)] in {0.0, 1.0}
  }

  /** Registering the success gauge and then the timing gauges into an
      empty registry is never refused, and yields them in that order. */
  lemma InitPrometheusSucceeds()
    ensures var gs := MetricGauges(SetupMetrics());
            && InitPrometheus(Prom.Registry([]), SetupMetrics())
               == Success(Prom.Registry([SuccessGauge(), gs[0], gs[1], gs[2]]))
            && Prom.Names([SuccessGauge(), gs[0], gs[1], gs[2]])
               == [SuccessMetricName, DurationMetricName, DomCompleteMetricName, DomInteractiveMetricName]
  {
    var gs := MetricGauges(SetupMetrics());
    assert |SuccessMetricName| == 23 && |DurationMetricName| == 32;
    assert |DomCompleteMetricName| == 45 && |DomInteractiveMetricName| == 48;
    var r1 := Prom.Registry([SuccessGauge()]);
    assert Prom.Names([]) == [] && [] + [SuccessGauge()] == [SuccessGauge()];
    assert Prom.RegisterMetric(Prom.Registry([]), SuccessGauge()) == Success(r1);
    assert Prom.Names(r1.gauges) == [SuccessMetricName];
    var r2 := Prom.Registry(r1.gauges + [gs[0]]);
    assert Prom.RegisterMetric(r1, gs[0]) == Success(r2);
    assert Prom.Names(r2.gauges) == [SuccessMetricName, DurationMetricName];
    var r3 := Prom.Registry(r2.gauges + [gs[1]]);
    assert Prom.RegisterMetric(r2, gs[1]) == Success(r3);
    assert Prom.Names(r3.gauges) == [SuccessMetricName, DurationMetricName, DomCompleteMetricName];
    var r4 := Prom.Registry(r3.gauges + [gs[2]]);
    assert Prom.RegisterMetric(r3, gs[2]) == Success(r4);
    assert Prom.Names(r4.gauges) == [SuccessMetricName, DurationMetricName, DomCompleteMetricName, DomInteractiveMetricName];
    assert |gs[1..][1..][1..]| == 0;
    assert RegisterAll(r3, gs[1..][1..]) == Success(r4);
    assert RegisterAll(r2, gs[1..]) == Success(r4);
    assert RegisterAll(r1, gs) == Success(r4);
    assert r4.gauges == [SuccessGauge(), gs[0], gs[1], gs[2]];
  }

  /** The four gauges registered at construction have distinct names, are
      labelled by `target` only, and hold no sample. */
  lemma InitialRegistryShape()
    ensures var gs := MetricGauges(SetupMetrics());
            var r := Prom.Registry([SuccessGauge(), gs[0], gs[1], gs[2]]);
            && Prom.DistinctNames(r)
            && (forall i :: 0 <= i < 4 ==> r.gauges[i].labelNames == [Prom.TargetLabel])
            && |Prom.Metrics(r)| == 0
  {
    var gs := MetricGauges(SetupMetrics());
    var all := [SuccessGauge(), gs[0], gs[1], gs[2]];
    assert |all[0].name| == 23 && |all[1].name| == 32;
    assert |all[2].name| == 45 && |all[3].name| == 48;
    assert forall i :: 0 <= i < 4 ==> |all[i].values| == 0;
    Prom.ResetLeavesNoSample(all);
  }

  /** Construction always succeeds: the four gauge names are pairwise
      distinct, so no registration is refused. The registry then holds the
      success gauge and the three timing gauges in that order, each
      labelled by `target` only, and no sample. */
  lemma NewRegistersFourGauges(opts: seq<ProbeOption>)
    ensures New(opts).Success?
    ensures var p := New(opts).value;
            && Prom.Names(p.registry.gauges)
               == [SuccessMetricName, DurationMetricName, DomCompleteMetricName, DomInteractiveMetricName]
            && Prom.DistinctNames(p.registry)
            && (forall i :: 0 <= i < 4 ==> p.registry.gauges[i].labelNames == [Prom.TargetLabel])
            && |Prom.Metrics(p.registry)| == 0
            && (p.hasLogger <==> WithLogger in opts)
            && (p.hasBrowserHandler <==> WithBrowserHandler in opts)
            && |p.metrics| == 3
            && p.metrics[0].performanceEntryName == "duration"
            && p.metrics[1].performanceEntryName == "domComplete"
            && p.metrics[2].performanceEntryName == "domInteractive"
  {
    InitPrometheusSucceeds();
    InitialRegistryShape();
    var ms := SetupMetrics();
    var r := InitPrometheus(Prom.Registry([]), ms).value;
    assert New(opts) == Success(Probe(WithLogger in opts, WithBrowserHandler in opts, r, ms));
  }

  /** A request while the browser is disconnected empties the registry and
      ends as the JSON error 500 'playwright browser is disconnected'; no
      content type is set and no session is opened. */
  lemma DisconnectedRequestFails(p: Probe, bh: BrowserHandler.Handler, target: string, failure: Option<Step>)
    requires p.hasBrowserHandler && BrowserHandler.IsConnected(bh) == Some(false)
    ensures var x := Index(p, bh, target, failure);
            && Respond(x.reply) == Json(ErrorMiddleware.ErrorResponse(500, ErrorMiddleware.Body(DisconnectedMessage, 500)))
            && |Prom.Metrics(x.probe.registry)| == 0
            && !x.contentTypeSet && !x.contextOpen && !x.pageOpen
  {
  }

  /** A connected request whose steps all succeed sends the registry's
      previous samples plus success = 1 for the target, then empties the
      registry; page and context are both closed. From an empty registry the
      snapshot is exactly that one sample. */
  lemma SuccessfulProbeSnapshot(p: Probe, bh: BrowserHandler.Handler, target: string)
    requires p.hasBrowserHandler && p.hasLogger && BrowserHandler.IsConnected(bh) == Some(true)
    requires Prom.Registered(p.registry, SuccessMetricName)
    ensures var x := Index(p, bh, target, None);
            && x.reply == Sent(Prom.Metrics(p.registry)[Prom.SampleKey(SuccessMetricName, target) := 1.0])
            && !x.contextOpen && !x.pageOpen
    ensures |Prom.Metrics(p.registry)| == 0 ==>
              Index(p, bh, target, None).reply == Sent(map[Prom.SampleKey(SuccessMetricName, target) := 1.0])
  {
  }

  /** A connected request whose steps throw at `s` sends exactly
      success = 0 for the target, whatever the registry held before, then
      empties the registry. The session is not torn down: the context stays
      open once created, the page once created and not yet closed. */
  lemma FailedProbeSnapshot(p: Probe, bh: BrowserHandler.Handler, target: string, s: Step)
    requires p.hasBrowserHandler && p.hasLogger && BrowserHandler.IsConnected(bh) == Some(true)
    requires Prom.Registered(p.registry, SuccessMetricName)
    ensures var x := Index(p, bh, target, Some(s));
            && x.reply == Sent(map[Prom.SampleKey(SuccessMetricName, target) := 0.0])
            && |Prom.Metrics(x.probe.registry)| == 0
            && x.contextOpen == (s != NewContext)
            && x.pageOpen == (s != NewContext && s != NewPage && s != CloseContext)
  {
    var r0 := Prom.ResetMetrics(p.registry);
    assert Prom.Registered(r0, SuccessMetricName);
    assert Prom.Metrics(r0) == map[];
    var r := RunSteps(p.registry, target, Some(s));
    assert Prom.Metrics(r) == map[Prom.SampleKey(SuccessMetricName, target) := 0.0];
    var x := Index(p, bh, target, Some(s));
    assert x.reply == Sent(Prom.Metrics(r));
    PageLeftCases(s);
  }

  lemma PageLeftCases(s: Step)
    ensures PageLeft(s) <==> s != NewContext && s != NewPage && s != CloseContext
    ensures ContextLeft(s) <==> s != NewContext
  {
  }

  /** The controller's last test: after the browser handler is closed,
      a probe request ends as the JSON error 500 with the disconnect
      message. */
  lemma RequestAfterCloseFails(p: Probe, bh: BrowserHandler.Handler, target: string, failure: Option<Step>)
    requires p.hasBrowserHandler && bh.browser.Some?
    ensures var closed := BrowserHandler.Close(bh).handler;
            Respond(Index(p, closed, target, failure).reply)
            == Json(ErrorMiddleware.ErrorResponse(500, ErrorMiddleware.Body(DisconnectedMessage, 500)))
  {
    DisconnectedRequestFails(p, BrowserHandler.Close(bh).handler, target, failure);
  }

  /** Page and context are closed only on the success path: a connected
      request leaves no session object open iff no step threw. */
  lemma SessionClosedOnlyOnSuccess(p: Probe, bh: BrowserHandler.Handler, target: string, failure: Option<Step>)
    requires p.hasBrowserHandler && p.hasLogger && BrowserHandler.IsConnected(bh) == Some(true)
    ensures var x := Index(p, bh, target, failure);
            (!x.contextOpen && !x.pageOpen) <==> failure.None? || failure == Some(NewContext)
  {
    assert FirstFailure(p.hasLogger, failure) == failure;
    if failure.Some? {
      PageLeftCases(failure.value);
    }
  }

  /** Without a logger, `logger.debug` throws inside the `try` and
      `logger.error` throws again inside the `catch`: the request gets no
      response and the success = 0 sample stays in the registry. */
  lemma MissingLoggerLeavesSample(p: Probe, bh: BrowserHandler.Handler, target: string, failure: Option<Step>)
    requires p.hasBrowserHandler && !p.hasLogger && BrowserHandler.IsConnected(bh) == Some(true)
    requires Prom.Registered(p.registry, SuccessMetricName)
    ensures var x := Index(p, bh, target, failure);
            && Respond(x.reply) == NoResponse
            && Prom.Metrics(x.probe.registry) == map[Prom.SampleKey(SuccessMetricName, target) := 0.0]
  {
    var r0 := Prom.ResetMetrics(p.registry);
    assert Prom.Registered(r0, SuccessMetricName);
    assert Prom.Metrics(r0) == map[];
  }

  /** A request stream: each request carries the browser handler's state
      at that moment, the target, and the first probe step that throws. */
  datatype Request = Request(handler: BrowserHandler.Handler, target: string, failure: Option<Step>)

  /** Requests handled one at a time, each seeing the controller the
      previous one left. */
  function Serve(p: Probe, reqs: seq<Request>): (xs: seq<Exchange>)
    ensures |xs| == |reqs|
    decreases |reqs|
  {
    if |reqs| == 0 then []
    else
      var x := Index(p, reqs[0].handler, reqs[0].target, reqs[0].failure);
      [x] + Serve(x.probe, reqs[1..])
  }

  /** However many requests are served, the controller keeps its options
      and metrics and its registry keeps the same gauge names: only
      labelled values ever change. */
  lemma {:induction false} ServeKeepsConfiguration(p: Probe, reqs: seq<Request>)
    ensures forall i :: 0 <= i < |reqs| ==> Serve(p, reqs)[i].probe.(registry := p.registry) == p
    ensures forall i :: 0 <= i < |reqs|
              ==> Prom.Names(Serve(p, reqs)[i].probe.registry.gauges) == Prom.Names(p.registry.gauges)
    decreases |reqs|
  {
    if |reqs| > 0 {
      var x := Index(p, reqs[0].handler, reqs[0].target, reqs[0].failure);
      var rest := Serve(x.probe, reqs[1..]);
      ServeKeepsConfiguration(x.probe, reqs[1..]);
      var xs := Serve(p, reqs);
      assert xs == [x] + rest;
      forall i | 1 <= i < |reqs|
        ensures xs[i].probe.(registry := p.registry) == p
        ensures Prom.Names(xs[i].probe.registry.gauges) == Prom.Names(p.registry.gauges)
      {
        var q := rest[i - 1].probe;
        assert xs[i] == rest[i - 1];
        assert q.(registry := x.probe.registry) == x.probe;
        assert q.hasLogger == p.hasLogger && q.hasBrowserHandler == p.hasBrowserHandler && q.metrics == p.metrics;
      }
    }
  }

  /** The only error a request stream ever forwards to the middleware is
      the 500 'playwright browser is disconnected'. */
  lemma {:induction false} ServeForwardsOnlyDisconnect(p: Probe, reqs: seq<Request>)
    ensures forall i :: 0 <= i < |reqs| && Serve(p, reqs)[i].reply.Forwarded?
              ==> Serve(p, reqs)[i].reply.error == ErrorMiddleware.HttpException(Some(500), DisconnectedMessage)
    decreases |reqs|
  {
    if |reqs| > 0 {
      var x := Index(p, reqs[0].handler, reqs[0].target, reqs[0].failure);
      var rest := Serve(x.probe, reqs[1..]);
      ServeForwardsOnlyDisconnect(x.probe, reqs[1..]);
      assert Serve(p, reqs) == [x] + rest;
      assert forall i | 1 <= i < |reqs| :: Serve(p, reqs)[i] == rest[i - 1];
    }
  }

  /** What holds between requests: the success gauge is registered, and a
      controller that can log holds no sample. */
  predicate Quiescent(p: Probe) {
    && Prom.Registered(p.registry, SuccessMetricName)
    && (p.hasLogger ==> |Prom.Metrics(p.registry)| == 0)
  }

  /** One request keeps `Quiescent`, and if it sends a snapshot, that
      snapshot is the single success sample for its target. */
  lemma IndexKeepsQuiescent(p: Probe, req: Request)
    requires Quiescent(p)
    ensures var x := Index(p, req.handler, req.target, req.failure);
            && Quiescent(x.probe)
            && (x.reply.Sent? ==> SingleSuccessSample(x.reply.body, req.target))
  {
    var x := Index(p, req.handler, req.target, req.failure);
    assert Prom.Registered(x.probe.registry, SuccessMetricName);
    if p.hasBrowserHandler && BrowserHandler.IsConnected(req.handler) == Some(true) && p.hasLogger {
      if req.failure.None? {
        SuccessfulProbeSnapshot(p, req.handler, req.target);
        SingletonIsSingleSuccess(req.target, 1.0);
      } else {
        FailedProbeSnapshot(p, req.handler, req.target, req.failure.value);
        SingletonIsSingleSuccess(req.target, 0.0);
      }
    }
  }

  lemma SingletonIsSingleSuccess(target: string, v: real)
    requires v == 0.0 || v == 1.0
    ensures SingleSuccessSample(map[Prom.SampleKey(SuccessMetricName, target) := v], target)
  {
  }

  /** Starting from a quiescent controller, every snapshot sent holds
      exactly one sample: success for the requested target, at 0 or 1. In
      particular no timing gauge ever appears in a response. */
  lemma {:induction false} EverySnapshotHoldsOneSample(p: Probe, reqs: seq<Request>)
    requires Quiescent(p)
    ensures var xs := Serve(p, reqs);
            forall i :: 0 <= i < |reqs| ==>
              Quiescent(xs[i].probe)
              && (xs[i].reply.Sent? ==> SingleSuccessSample(xs[i].reply.body, reqs[i].target))
    decreases |reqs|
  {
    if |reqs| > 0 {
      IndexKeepsQuiescent(p, reqs[0]);
      var x := Index(p, reqs[0].handler, reqs[0].target, reqs[0].failure);
      EverySnapshotHoldsOneSample(x.probe, reqs[1..]);
      var xs := Serve(p, reqs);
      assert xs[1..] == Serve(x.probe, reqs[1..]);
      forall i | 1 <= i < |reqs|
        ensures Quiescent(xs[i].probe)
        ensures xs[i].reply.Sent? ==> SingleSuccessSample(xs[i].reply.body, reqs[i].target)
      {
        assert xs[i] == xs[1..][i - 1] && reqs[i] == reqs[1..][i - 1];
      }
    }
  }

  /** A controller fresh from its constructor is quiescent. */
  lemma NewIsQuiescent(opts: seq<ProbeOption>)
    ensures New(opts).Success? && Quiescent(New(opts).value)
  {
    InitPrometheusSucceeds();
    var gs := MetricGauges(SetupMetrics());
    Prom.ResetLeavesNoSample([SuccessGauge(), gs[0], gs[1], gs[2]]);
  }

  /** The single success sample leaves no room for a timing gauge. */
  lemma NoTimingSample(body: map<Prom.SampleKey, real>, target: string)
    requires SingleSuccessSample(body, target)
    ensures forall t :: Prom.SampleKey(DurationMetricName, t) !in body
    ensures forall t :: Prom.SampleKey(DomCompleteMetricName, t) !in body
    ensures forall t :: Prom.SampleKey(DomInteractiveMetricName, t) !in body
  {
    assert |SuccessMetricName| == 23 && |DurationMetricName| == 32;
    assert |DomCompleteMetricName| == 45 && |DomInteractiveMetricName| == 48;
  }

  /** For a controller fresh from its constructor: every snapshot it sends
      is the single success sample of its request, and none carries a
      sample of the timing gauges. */
  lemma FreshProbeSendsOnlySuccess(opts: seq<ProbeOption>, reqs: seq<Request>)
    ensures New(opts).Success?
    ensures var xs := Serve(New(opts).value, reqs);
            forall i :: 0 <= i < |reqs| && xs[i].reply.Sent? ==>
              && SingleSuccessSample(xs[i].reply.body, reqs[i].target)
              && Prom.SampleKey(DurationMetricName, reqs[i].target) !in xs[i].reply.body
              && Prom.SampleKey(DomCompleteMetricName, reqs[i].target) !in xs[i].reply.body
              && Prom.SampleKey(DomInteractiveMetricName, reqs[i].target) !in xs[i].reply.body
  {
    NewIsQuiescent(opts);
    var xs := Serve(New(opts).value, reqs);
    EverySnapshotHoldsOneSample(New(opts).value, reqs);
    forall i | 0 <= i < |reqs| && xs[i].reply.Sent?
      ensures SingleSuccessSample(xs[i].reply.body, reqs[i].target)
      ensures Prom.SampleKey(DurationMetricName, reqs[i].target) !in xs[i].reply.body
      ensures Prom.SampleKey(DomCompleteMetricName, reqs[i].target) !in xs[i].reply.body
      ensures Prom.SampleKey(DomInteractiveMetricName, reqs[i].target) !in xs[i].reply.body
    {
      NoTimingSample(xs[i].reply.body, reqs[i].target);
    }
  }

  /** What a client receives from a quiescent controller (a freshly
      constructed one is, by `NewIsQuiescent`): every 200 response lists
      exactly one sample, the success gauge for the target it asked about,
      at 0 or 1; every JSON response is the 500 'playwright browser is
      disconnected'. */
  lemma ClientSeesOnlySuccess(p: Probe, reqs: seq<Request>)
    requires Quiescent(p)
    ensures var xs := Serve(p, reqs);
            forall i :: 0 <= i < |reqs| ==>
              var resp := Respond(xs[i].reply);
              (resp.Exposition? ==> resp.status == 200 && SingleSuccessSample(resp.samples, reqs[i].target))
              && (resp.Json? ==> resp.error == DisconnectedResponse)
  {
    EverySnapshotHoldsOneSample(p, reqs);
    ServeForwardsOnlyDisconnect(p, reqs);
    var xs := Serve(p, reqs);
    forall i | 0 <= i < |reqs|
      ensures var resp := Respond(xs[i].reply);
              (resp.Exposition? ==> resp.status == 200 && SingleSuccessSample(resp.samples, reqs[i].target))
              && (resp.Json? ==> resp.error == DisconnectedResponse)
    {
      var reply := xs[i].reply;
      match reply
      case Sent(body) =>
        assert SingleSuccessSample(body, reqs[i].target);
      case Forwarded(e) =>
        assert e == ErrorMiddleware.HttpException(Some(500), DisconnectedMessage);
      case Rejected =>
    }
  }
}

=== FILE: prom.dfy ===
/** An abstraction of the metrics library the exporter uses: labelled gauges
    and a registry that renders every registered gauge into one snapshot.
    Every gauge of the exporter is labelled by `target` only, so a gauge's
    values are kept as a map from the target label value to the gauge value.
    The exposition text is not modelled: a snapshot is the map from
    (metric name, target) to value that the text would list. */
module Prom {
  import opened Wrappers

  /** The label every gauge of the exporter declares. */
  const TargetLabel: string := "target"

  datatype Gauge = Gauge(name: string, help: string, labelNames: seq<string>, values: map<string, real>)

  /** One line of the exposition output: a metric name and its label value. */
  datatype SampleKey = SampleKey(metric: string, target: string)

  /** A registry holds its gauges in registration order. */
  datatype Registry = Registry(gauges: seq<Gauge>)

  /** A freshly constructed gauge holds no sample. */
  function NewGauge(name: string, help: string, labelNames: seq<string>): (g: Gauge)
    ensures g.name == name && g.help == help && g.labelNames == labelNames
    ensures |g.values| == 0
  {
    Gauge(name, help, labelNames, map[])
  }

  /** `gauge.set({target}, v)`: the last value written for a label wins. */
  function Set(g: Gauge, target: string, v: real): (g': Gauge)
    ensures g'.name == g.name && g'.help == g.help && g'.labelNames == g.labelNames
    ensures target in g'.values && g'.values[target] == v
    ensures g'.values.Keys == g.values.Keys + {target}
    ensures forall t :: t in g.values && t != target ==> g'.values[t] == g.values[t]
  {
    g.(values := g.values[target := v])
  }

  /** `gauge.reset()`: every labelled value is dropped. */
  function Reset(g: Gauge): (g': Gauge)
    ensures g'.name == g.name && g'.help == g.help && g'.labelNames == g.labelNames
    ensures |g'.values| == 0
  {
    g.(values := map[])
  }

  /** The samples a single gauge contributes to a snapshot. */
  function GaugeSamples(g: Gauge): (m: map<SampleKey, real>)
    ensures forall k :: k in m <==> k.metric == g.name && k.target in g.values
    ensures forall k :: k in m ==> m[k] == g.values[k.target]
  {
    map t | t in g.values :: SampleKey(g.name, t) := g.values[t]
  }

  /** The samples of a sequence of gauges; a later gauge wins on a clash,
      which cannot happen in a registry (names are distinct there). */
  function Samples(gs: seq<Gauge>): (m: map<SampleKey, real>)
  {
    if |gs| == 0 then map[] else GaugeSamples(gs[0]) + Samples(gs[1..])
  }

  function Names(gs: seq<Gauge>): (ns: seq<string>)
    ensures |ns| == |gs|
    ensures forall i :: 0 <= i < |gs| ==> ns[i] == gs[i].name
  {
    seq(|gs|, i requires 0 <= i < |gs| => gs[i].name)
  }

  predicate Registered(r: Registry, name: string) {
    name in Names(r.gauges)
  }

  /** No two registered gauges share a name. */
  predicate DistinctNames(r: Registry) {
    forall i, j :: 0 <= i < j < |r.gauges| ==> r.gauges[i].name != r.gauges[j].name
  }

  /** `registry.registerMetric(g)`: refused when a metric of that name is
      already registered. */
  function RegisterMetric(r: Registry, g: Gauge): (res: Result<Registry, string>)
    ensures res.Success? <==> !Registered(r, g.name)
    ensures res.Success? ==> res.value.gauges == r.gauges + [g]
    ensures res.Success? && DistinctNames(r) ==> DistinctNames(res.value)
  {
    if Registered(r, g.name) then
      Failure("A metric with the name " + g.name + " has already been registered.")
    else
      Success(Registry(r.gauges + [g]))
  }

  /** `registry.metrics()`: the snapshot of every registered gauge. */
  function Metrics(r: Registry): (m: map<SampleKey, real>) {
    Samples(r.gauges)
  }

  function ResetAll(gs: seq<Gauge>): (gs': seq<Gauge>)
    ensures |gs'| == |gs|
    ensures forall i :: 0 <= i < |gs| ==> gs'[i] == Reset(gs[i])
  {
    seq(|gs|, i requires 0 <= i < |gs| => Reset(gs[i]))
  }

  /** `registry.resetMetrics()`: every registered gauge is reset. */
  function ResetMetrics(r: Registry): (r': Registry)
    ensures Names(r'.gauges) == Names(r.gauges)
    ensures |Metrics(r')| == 0
  {
    var r' := Registry(ResetAll(r.gauges));
    ResetLeavesNoSample(r'.gauges);
    r'
  }

  function SetAll(gs: seq<Gauge>, name: string, target: string, v: real): (gs': seq<Gauge>)
    ensures |gs'| == |gs|
    ensures forall i :: 0 <= i < |gs| ==> gs'[i] == if gs[i].name == name then Set(gs[i], target, v) else gs[i]
  {
    seq(|gs|, i requires 0 <= i < |gs| => if gs[i].name == name then Set(gs[i], target, v) else gs[i])
  }

  /** Setting a registered gauge through a reference to it, modelled by name:
      the snapshot gains (or overwrites) exactly that one sample. */
  function SetGauge(r: Registry, name: string, target: string, v: real): (r': Registry)
    ensures Names(r'.gauges) == Names(r.gauges)
    ensures Registered(r, name) ==> Metrics(r') == Metrics(r)[SampleKey(name, target) := v]
    ensures !Registered(r, name) ==> r' == r
  {
    var r' := Registry(SetAll(r.gauges, name, target, v));
    if Registered(r, name) then
      SetAddsOneSample(r.gauges, name, target, v);
      r'
    else
      assert r'.gauges == r.gauges;
      r'
  }

  lemma {:induction false} ResetLeavesNoSample(gs: seq<Gauge>)
    requires forall i :: 0 <= i < |gs| ==> |gs[i].values| == 0
    ensures |Samples(gs)| == 0
  {
    if |gs| > 0 {
      ResetLeavesNoSample(gs[1..]);
      assert GaugeSamples(gs[0]) == map[];
    }
  }

  /** A key of `Samples(gs)` names one of the gauges. */
  lemma {:induction false} SampleNamesGauge(gs: seq<Gauge>, k: SampleKey)
    requires k in Samples(gs)
    ensures k.metric in Names(gs)
  {
    if k !in GaugeSamples(gs[0]) {
      SampleNamesGauge(gs[1..], k);
      assert Names(gs[1..]) == Names(gs)[1..];
    }
  }

  lemma UpdateUnion(a: map<SampleKey, real>, b: map<SampleKey, real>, a': map<SampleKey, real>, b': map<SampleKey, real>, k: SampleKey, v: real)
    requires a' == a[k := v] || (a' == a && k in b')
    requires b' == b[k := v] || (b' == b && k in a' && k !in b)
    ensures a' + b' == (a + b)[k := v]
  {
  }

  /** A gauge holding one labelled value renders exactly that sample. */
  lemma SingleValueSamples(g: Gauge, target: string, v: real)
    requires g.values == map[target := v]
    ensures GaugeSamples(g) == map[SampleKey(g.name, target) := v]
  {
    assert GaugeSamples(g).Keys == {SampleKey(g.name, target)};
  }

  lemma GaugeSamplesOfSet(g: Gauge, target: string, v: real)
    ensures GaugeSamples(Set(g, target, v)) == GaugeSamples(g)[SampleKey(g.name, target) := v]
  {
  }

  lemma SetAllTail(gs: seq<Gauge>, name: string, target: string, v: real)
    requires |gs| > 0
    ensures SetAll(gs, name, target, v)[1..] == SetAll(gs[1..], name, target, v)
    ensures Names(gs[1..]) == Names(gs)[1..]
  {
  }

  lemma SetAllSplit(gs: seq<Gauge>, name: string, target: string, v: real)
    requires |gs| > 0
    ensures Samples(SetAll(gs, name, target, v))
         == GaugeSamples(SetAll(gs, name, target, v)[0]) + Samples(SetAll(gs[1..], name, target, v))
    ensures Names(gs[1..]) == Names(gs)[1..]
  {
    SetAllTail(gs, name, target, v);
    var gs' := SetAll(gs, name, target, v);
    assert Samples(gs') == GaugeSamples(gs'[0]) + Samples(gs'[1..]);
  }

  lemma {:induction false} SetAddsOneSample(gs: seq<Gauge>, name: string, target: string, v: real)
    requires name in Names(gs)
    ensures Samples(SetAll(gs, name, target, v)) == Samples(gs)[SampleKey(name, target) := v]
  {
    var k := SampleKey(name, target);
    var rest := gs[1..];
    SetAllSplit(gs, name, target, v);
    var head := GaugeSamples(gs[0]);
    var head' := GaugeSamples(SetAll(gs, name, target, v)[0]);
    if gs[0].name == name {
      GaugeSamplesOfSet(gs[0], target, v);
      if name in Names(rest) {
        SetAddsOneSample(rest, name, target, v);
      } else {
        assert SetAll(rest, name, target, v) == rest;
        if k in Samples(rest) {
          SampleNamesGauge(rest, k);
        }
      }
      UpdateUnion(head, Samples(rest), head', Samples(SetAll(rest, name, target, v)), k, v);
    } else {
      SetAddsOneSample(rest, name, target, v);
      UpdateUnion(head, Samples(rest), head', Samples(SetAll(rest, name, target, v)), k, v);
    }
  }
}

=== FILE: wrappers.dfy ===
/** `Option` stands for a JavaScript value that may be `undefined`;
    `Result` for a call that either returns or throws (a promise that
    resolves or rejects), usable with `:-`. */
module Wrappers {

  datatype Option<+T> = None | Some(value: T)

  datatype Result<+R, +E> = Success(value: R) | Failure(error: E) {
    predicate IsFailure() {
      Failure?
    }

    function PropagateFailure<U>(): Result<U, E>
      requires Failure?
    {
      Failure(error)
    }

    function Extract(): R
      requires Success?
    {
      value
    }
  }
}
